=== FILE: README.md ===
# jiff's single error type, in Dafny

A model of the error subsystem of the `jiff` datetime library (`src/error.rs`):
one `Error` type for every fallible operation, holding a kind and an optional
cause, the causes forming a singly linked chain.

- `Kinds` (`error_kind.dfy`): the closed union `ErrorKind` (`Adhoc`, `Range`,
  `TimeZoneLookup`, `FilePath`, `IO`), the range shapes `Positive`, `Negative`
  and `Specific`, and each kind's `Display` text. Every text template has an
  inverse parser, and the two are proved mutually inverse for every field
  value, parameter and zone names with quotes included.
- `Decimal` (`decimal.dfy`): how `{}` writes a `u128`/`i128`, with the inverse
  parser. The two are proved mutually inverse on canonical decimal strings.
- `Errors` (`error.dfy`): the `Error` value; the leaf constructors built
  through `From<ErrorKind>`; `IntoError`; `context`/`with_context` on errors
  and on results; the panic of `context` and of `with_context` on errors
  when the consequent already has a cause; `path` and `fs`; the recursive rendering and the iterative
  `Display` loop, proved equal.
- `ErrorLaws` (`error.dfy`): laws relating several calls. These cover nesting
  of contexts, text consequents, producers on success, and which kinds the
  build without `std` can construct.
- `Scenarios` (`scenarios.dfy`): concrete renderings.
- `Text`, `Prelude`: string helpers, `Option` and `Result`.

The shared reference-counted box is dropped. An `Error` is an immutable
datatype value. The one mutation in the source sets the cause of a freshly
built, unshared error. Here that is building a new value.

## Model

| member | source | states |
|---|---|---|
| Decimal.IntToString | src/error.rs:307-323 | an integer field is written as a canonical decimal: digits, no leading zero, '-' only in front of a non-zero magnitude |
| Decimal.IntRoundTrip | src/error.rs:307-323 | reading back the decimal text of any integer gives that integer |
| Decimal.IntParseRoundTrip | src/error.rs:307-323 | every string the integer parser accepts is exactly the decimal text of its value, so the encoding is a bijection |
| Decimal.NatRoundTrip | src/error.rs:307-313 | reading back the decimal text of any natural (the unsigned `given`) gives that natural |
| Decimal.NatParseRoundTrip | src/error.rs:307-313 | every canonical digit string is exactly the decimal text of its value |
| Kinds.RangeText | src/error.rs:304-326 | a range error's text has the fields spliced into the bounded or the illegal template: parsing it, from the right, recovers whether the text is bounded or illegal, the name (whatever characters it holds), the given value and the bounds, but not whether the given value was unsigned or signed |
| Kinds.BoundedTextRoundTrip | src/error.rs:307-320 | the bounded template parses back to its name, given value and bounds, for every name |
| Kinds.IllegalTextRoundTrip | src/error.rs:321-323 | the illegal template parses back to its name and given value, for every name |
| Kinds.RangeTextParseRoundTrip | src/error.rs:304-326 | any text the range parser accepts is exactly the template rendering of what it returns, so the template is injective |
| Kinds.PositiveNegativeSameText | src/error.rs:307-320 | the unsigned and signed bounded shapes write identical text for the same numbers |
| Kinds.TimeZoneLookupText | src/error.rs:339-347 | `failed to find timezone '<name>' in time zone database` parses back to any name, quotes included |
| Kinds.TimeZoneLookupParseRoundTrip | src/error.rs:339-347 | any text the lookup parser accepts is exactly the template rendering of the returned name |
| Kinds.KindText | src/error.rs:214-224 | each kind writes its own payload's text: ad hoc messages, paths and I/O texts verbatim, range and lookup errors recoverably |
| Errors.Chain | src/error.rs:59-63 | the chain starts with the error's own kind and has length one exactly for an error without cause |
| Errors.FromChain | src/error.rs:59-63 | the error built from a list of kinds has the head as its kind, and is a leaf exactly when the list has one element |
| Errors.ChainOfFromChain | src/error.rs:476-478 | every non-empty list of kinds is the chain of the error built from it |
| Errors.FromChainOfChain | src/error.rs:476-478 | every error is determined by its chain: causes form a linked list, not a tree |
| Errors.Render | src/error.rs:199-212 | the rendered text is one kind text per link of the chain, outermost first, joined by ": " |
| Errors.Display | src/error.rs:199-212 | the iterative loop writes exactly the recursive rendering |
| Errors.FromKind | src/error.rs:226-230 | `From<ErrorKind>` builds a leaf: chain of length one, rendering exactly the kind's text |
| Errors.Adhoc | src/error.rs:112-116 | an ad hoc error is a leaf rendering exactly its message |
| Errors.Unsigned | src/error.rs:118-127 | a leaf with the `Positive` kind whose text parses back, for every name, to the name, given value and bounds |
| Errors.Signed | src/error.rs:129-138 | a leaf with the `Negative` kind whose text parses back, for every name, to the name, given value and bounds |
| Errors.Specific | src/error.rs:140-145 | a leaf with the `Specific` kind whose text parses back, for every name, to the name and the illegal value |
| Errors.TimeZoneLookup | src/error.rs:147-152 | a leaf whose text parses back to the zone name |
| Errors.Io | src/error.rs:177-179 | a leaf rendering the operating system error's text |
| Errors.IntoError | src/error.rs:445-461 | an error converts to itself; a borrowed or owned string converts to an ad hoc leaf rendering that string |
| Errors.Context | src/error.rs:497-506 | requires the converted consequent to have no cause; the result has the consequent's kind and `self` as cause, its chain is one longer and its text is the consequent's text, ": ", then `self`'s text |
| Errors.ContextChecked | src/error.rs:497-506 | for an unshared consequent, `context` panics with "cause of consequence must be `None`" exactly when the consequent already has a cause, and otherwise links `self` as its cause |
| Errors.WithContext | src/error.rs:508-520 | `with_context` gives exactly what `context` gives on the produced consequent, under the same precondition |
| Errors.WithContextChecked | src/error.rs:508-520 | for an unshared consequent, `with_context` on an error panics exactly when the produced consequent already has a cause, with the same outcome as `context` on that consequent |
| Errors.ResultContext | src/error.rs:524-526 | on a result, a success comes back unchanged; a failure gains the consequent in front of its chain |
| Errors.ResultWithContext | src/error.rs:528-533 | on a result, a success comes back unchanged whatever the producer; a failure gains the produced consequent in front of its chain |
| Errors.Path | src/error.rs:188-193 | `path` puts a bare path in front of the chain; the text is `<path>: ` then the error's text |
| Errors.Fs | src/error.rs:162-167 | `fs` builds the two-link chain `FilePath`, `IO` rendering `<path>: <io text>` |
| ErrorLaws.ContextTwice | src/error.rs:497-506 | attaching B then C to A gives the chain C, B, A and the text `C: B: A` |
| ErrorLaws.TextConsequentIsAdhoc | src/error.rs:451-461 | a string consequent is always accepted and gives the same error as the ad hoc error built from it |
| ErrorLaws.OkIgnoresProducer | src/error.rs:528-533 | on a success, `with_context` returns the success even with a producer whose error would make `context` panic: the producer is not needed |
| ErrorLaws.ResultWithContextIsContext | src/error.rs:523-534 | on results, `with_context` with a producer agrees with `context` on the produced value |
| ErrorLaws.ReducedBuildLeaves | src/error.rs:85-101 | the constructors available without `std` only build chains free of `FilePath` and `IO` |
| ErrorLaws.StdOnlyConstructors | src/error.rs:160-193 | `io`, `path` and `fs` build chains the build without `std` cannot hold |
| ErrorLaws.ContextInBuild | src/error.rs:497-506 | attaching context keeps a chain within a build exactly when both the cause and the consequent are within it |
| Scenarios.DayOutOfRange | src/error.rs:304-313 | `unsigned("day", 40, 1, 31)` renders `parameter 'day' with value 40 is not in the required range of 1..=31` |
| Scenarios.DayZeroIsIllegal | src/error.rs:321-323 | `specific("day", 0)` renders `parameter 'day' with value 0 is illegal` |
| Scenarios.NegativeBound | src/error.rs:314-320 | `signed("offset", -5, -3, 3)` renders `parameter 'offset' with value -5 is not in the required range of -3..=3` |
| Scenarios.UnknownZone | src/error.rs:339-347 | `time_zone_lookup("Fake/Zone")` renders `failed to find timezone 'Fake/Zone' in time zone database` |
| Scenarios.AdhocWithContext | src/error.rs:497-506 | `adhoc("bad input").context("parsing duration")` renders `parsing duration: bad input` |
| Scenarios.TwoContexts | src/error.rs:199-212 | two nested contexts render outermost first |
| Scenarios.FsChain | src/error.rs:162-167 | an `fs` error renders the path, ": ", then the I/O text |
| Scenarios.CausedConsequentPanics | src/error.rs:499-502 | using an error that already has a cause as a consequent panics |

## Left out

- The `Arc` box and the one-word size test (src/error.rs:544-548). These are memory layout and reference counting. The model uses immutable values.
- Errors.ContextChecked: the source has a second panic path. `Arc::get_mut(..).unwrap()` (src/error.rs:504) panics when the consequent is an `Error` the caller still shares through a clone. Values have no sharing, so the model treats every consequent as unshared and returns the linked error there.
- Errors.WithContextChecked: the same second panic path at src/error.rs:518 is left out, for the same reason.
- `std::io::Error` and `PathBuf::display` are foreign types. Each is modelled as the text it displays, supplied by the caller.
- The boxed `dyn Display` inside `AdhocError` is modelled as the text it displays.
- The `err!` macro is `format!` followed by `adhoc`. Formatting is not modelled.
- The `Formatter` can fail while writing (the `?` in the `Display` loop). Writer failures are not modelled. The loop always writes the whole chain.
- The `std` feature is a build-time switch. It is modelled as the predicate `ErrorLaws.InBuild`. The `<BUG: SHOULD NOT EXIST>` fallback texts are not modelled, because no chain built in that build reaches them.
- `Debug` impls and `std::error::Error` impls carry no behaviour beyond `Display`.
- Widening through `Into<u128>`/`Into<i128>` is modelled by the subset types `U128` and `I128`.
- `crates/jiff-aws/src/lib.rs` is not part of this model. It converts between `aws_smithy_types::DateTime` and jiff's own `Timestamp` and `Zoned`, passing the seconds and nanoseconds through `as` casts. It holds no logic of the error subsystem.
- A pure model cannot observe whether a closure was called. "The producer is never called on success" is stated instead as independence of the result from the producer (`ErrorLaws.OkIgnoresProducer`).

=== FILE: decimal.dfy ===
/**
 Decimal rendering of integers, as Rust's `Display` writes a `u128` or an
 `i128` (no padding, no leading zeros, a leading '-' for negatives), together
 with the inverse parser that serves as its partner: the two are proved to be
 mutually inverse on canonical decimal strings.
 */
module Decimal {
  import opened Prelude

  predicate IsDigit(c: char) {
    '0' <= c <= '9'
  }

  /** A character that can occur in a rendered integer. */
  predicate IsDecimalChar(c: char) {
    IsDigit(c) || c == '-'
  }

  predicate AllDigits(s: string) {
    forall i :: 0 <= i < |s| ==> IsDigit(s[i])
  }

  predicate AllDecimalChars(s: string) {
    forall i :: 0 <= i < |s| ==> IsDecimalChar(s[i])
  }

  /** A non-empty digit string without a leading zero, or the string "0". */
  predicate IsCanonicalNat(s: string) {
    |s| > 0 && AllDigits(s) && (s[0] == '0' ==> |s| == 1)
  }

  /** A canonical natural, or '-' followed by a canonical non-zero natural. */
  predicate IsCanonicalInt(s: string) {
    || IsCanonicalNat(s)
    || (|s| >= 2 && s[0] == '-' && IsCanonicalNat(s[1..]) && s[1] != '0')
  }

  function DigitValue(c: char): (d: nat)
    requires IsDigit(c)
    ensures d < 10
  {
    c as int - '0' as int
  }

  function DigitChar(d: nat): (c: char)
    requires d < 10
    ensures IsDigit(c) && DigitValue(c) == d
  {
    ('0' as int + d) as char
  }

  /** The digits of `n`, most significant first. */
  function NatToString(n: nat): (s: string)
    ensures IsCanonicalNat(s)
    ensures s[0] == '0' <==> n == 0
    decreases n
  {
    if n < 10 then [DigitChar(n)] else NatToString(n / 10) + [DigitChar(n % 10)]
  }

  /** What `{}` writes for a signed integer. */
  function IntToString(i: int): (s: string)
    ensures IsCanonicalInt(s)
    ensures AllDecimalChars(s)
    ensures |s| > 0
  {
    if i < 0 then "-" + NatToString(-i) else NatToString(i)
  }

  /** The value of a digit string read most significant digit first. */
  function DigitsValue(s: string): nat
    requires AllDigits(s)
  {
    if |s| == 0 then 0 else DigitsValue(s[..|s| - 1]) * 10 + DigitValue(s[|s| - 1])
  }

  /** Reads a canonical natural; anything else is rejected. */
  function ParseNat(s: string): (r: Option<nat>)
    ensures r.Some? <==> IsCanonicalNat(s)
  {
    if IsCanonicalNat(s) then Some(DigitsValue(s)) else None
  }

  /** Reads a canonical integer; anything else is rejected. */
  function ParseInt(s: string): (r: Option<int>)
    ensures r.Some? <==> IsCanonicalInt(s)
  {
    if IsCanonicalNat(s) then Some(DigitsValue(s) as int)
    else if |s| >= 2 && s[0] == '-' && IsCanonicalNat(s[1..]) && s[1] != '0' then Some(-(DigitsValue(s[1..]) as int))
    else None
  }

  lemma {:induction false} DigitsValueOfNatToString(n: nat)
    ensures DigitsValue(NatToString(n)) == n
    decreases n
  {
    if n >= 10 {
      var p := NatToString(n / 10);
      var s := NatToString(n);
      assert s == p + [DigitChar(n % 10)];
      assert s[..|s| - 1] == p;
      DigitsValueOfNatToString(n / 10);
    }
  }

  lemma {:induction false} PositiveLeadingDigit(s: string)
    requires |s| > 0 && AllDigits(s) && s[0] != '0'
    ensures DigitsValue(s) > 0
    decreases |s|
  {
    if |s| > 1 {
      var p := s[..|s| - 1];
      assert p[0] == s[0];
      PositiveLeadingDigit(p);
    }
  }

  lemma {:induction false} NatToStringOfDigitsValue(s: string)
    requires IsCanonicalNat(s)
    ensures NatToString(DigitsValue(s)) == s
    decreases |s|
  {
    if |s| == 1 {
      assert s == [DigitChar(DigitValue(s[0]))];
    } else {
      var p := s[..|s| - 1];
      var d := DigitValue(s[|s| - 1]);
      assert p[0] == s[0];
      PositiveLeadingDigit(p);
      var n := DigitsValue(s);
      assert n == DigitsValue(p) * 10 + d;
      assert n / 10 == DigitsValue(p) && n % 10 == d;
      NatToStringOfDigitsValue(p);
      assert DigitChar(d) == s[|s| - 1];
      assert s == p + [s[|s| - 1]];
    }
  }

  /** Reading back what `NatToString` wrote gives the original number. */
  lemma NatRoundTrip(n: nat)
    ensures ParseNat(NatToString(n)) == Some(n)
  {
    DigitsValueOfNatToString(n);
  }

  /** Every string `ParseNat` accepts is exactly how its value is written. */
  lemma NatParseRoundTrip(s: string)
    requires ParseNat(s).Some?
    ensures NatToString(ParseNat(s).value) == s
  {
    NatToStringOfDigitsValue(s);
  }

  /** Reading back what `IntToString` wrote gives the original integer. */
  lemma IntRoundTrip(i: int)
    ensures ParseInt(IntToString(i)) == Some(i)
  {
    var s := IntToString(i);
    if i < 0 {
      assert s[1..] == NatToString(-i);
      DigitsValueOfNatToString(-i);
    } else {
      DigitsValueOfNatToString(i);
    }
  }

  /** Every string `ParseInt` accepts is exactly how its value is written. */
  lemma IntParseRoundTrip(s: string)
    requires ParseInt(s).Some?
    ensures IntToString(ParseInt(s).value) == s
  {
    if IsCanonicalNat(s) {
      NatToStringOfDigitsValue(s);
    } else {
      var t := s[1..];
      NatToStringOfDigitsValue(t);
      PositiveLeadingDigit(t);
      assert s == "-" + t;
    }
  }
}

=== FILE: error.dfy ===
/**
 jiff's single error type: one kind plus an optional cause, the causes
 forming a singly linked chain; the leaf constructors; the context
 attachment protocol on errors and on results; and the `Display` loop that
 writes the chain outermost first, separated by ": ".

 The shared reference-counted box of the Rust type is immaterial here: an
 `Error` is an immutable value, and relinking a freshly built error (the one
 moment the source mutates) is building a new value.
 */
module Errors {
  import opened Prelude
  import opened Text
  import opened Kinds

  datatype Error = Error(kind: ErrorKind, cause: Option<Error>)

  /** The separator written between consecutive links of a chain. */
  const SEPARATOR: string := ": "

  /** The message of the assertion in `context` and `with_context`. */
  const CAUSE_MUST_BE_NONE: string := "cause of consequence must be `None`"

  predicate IsLeaf(e: Error) {
    e.cause.None?
  }

  /** The kinds along the causal chain, from `e` itself to the original cause. */
  function Chain(e: Error): (ks: seq<ErrorKind>)
    ensures |ks| >= 1 && ks[0] == e.kind
    ensures |ks| == 1 <==> IsLeaf(e)
    decreases e
  {
    match e.cause
    case None => [e.kind]
    case Some(c) => [e.kind] + Chain(c)
  }

  /** The error whose chain is `ks`: every non-empty list of kinds is the chain of exactly one error. */
  function FromChain(ks: seq<ErrorKind>): (e: Error)
    requires |ks| >= 1
    ensures e.kind == ks[0]
    ensures IsLeaf(e) <==> |ks| == 1
    decreases |ks|
  {
    if |ks| == 1 then Error(ks[0], None) else Error(ks[0], Some(FromChain(ks[1..])))
  }

  lemma {:induction false} ChainOfFromChain(ks: seq<ErrorKind>)
    requires |ks| >= 1
    ensures Chain(FromChain(ks)) == ks
    decreases |ks|
  {
    if |ks| > 1 {
      ChainOfFromChain(ks[1..]);
      assert [ks[0]] + ks[1..] == ks;
    }
  }

  lemma {:induction false} FromChainOfChain(e: Error)
    ensures FromChain(Chain(e)) == e
    decreases e
  {
    match e.cause
    case None =>
    case Some(c) =>
      FromChainOfChain(c);
      assert Chain(e)[1..] == Chain(c);
  }

  function Texts(ks: seq<ErrorKind>): (ts: seq<string>)
    ensures |ts| == |ks|
    ensures forall i :: 0 <= i < |ks| ==> ts[i] == KindText(ks[i])
  {
    seq(|ks|, i requires 0 <= i < |ks| => KindText(ks[i]))
  }

  /**
   The reference rendering: the kind's text, then, if there is a cause, the
   separator and the cause's rendering. That is one segment per link of the
   chain, outermost first, joined by the separator.
   */
  function Render(e: Error): (r: string)
    ensures r == Join(Texts(Chain(e)), SEPARATOR)
    decreases e
  {
    match e.cause
    case None => KindText(e.kind)
    case Some(c) =>
      var rest := Render(c);
      assert Texts(Chain(e)) == [KindText(e.kind)] + Texts(Chain(c));
      JoinCons(KindText(e.kind), Texts(Chain(c)), SEPARATOR);
      KindText(e.kind) + SEPARATOR + rest
  }

  /** `Display for Error`: the loop that walks the chain without recursion. */
  method Display(e: Error) returns (s: string)
    ensures s == Render(e)
  {
    s := "";
    var err := e;
    while true
      invariant s + Render(err) == Render(e)
      decreases err
    {
      s := s + KindText(err.kind);
      if err.cause.None? {
        break;
      }
      err := err.cause.value;
      s := s + SEPARATOR;
    }
  }

  /** `From<ErrorKind> for Error`: a leaf carrying `kind`. */
  function FromKind(kind: ErrorKind): (e: Error)
    ensures IsLeaf(e)
    ensures Chain(e) == [kind]
    ensures Render(e) == KindText(kind)
  {
    Error(kind, None)
  }

  /** `Error::adhoc`. */
  function Adhoc(message: string): (e: Error)
    ensures Chain(e) == [ErrorKind.Adhoc(message)]
    ensures Render(e) == message
  {
    FromKind(ErrorKind.Adhoc(message))
  }

  /** `Error::unsigned`: a leaf whose text reads back as the bounded range it reports. */
  function Unsigned(what: string, given: U128, min: I128, max: I128): (e: Error)
    ensures Chain(e) == [Range(Positive(what, given, min, max))]
    ensures Render(e) == BoundedText(what, given, min, max)
    ensures ParseRangeText(Render(e)) == Some(Bounded(what, given, min, max))
  {
    FromKind(Range(Positive(what, given, min, max)))
  }

  /** `Error::signed`: a leaf whose text reads back as the bounded range it reports. */
  function Signed(what: string, given: I128, min: I128, max: I128): (e: Error)
    ensures Chain(e) == [Range(Negative(what, given, min, max))]
    ensures Render(e) == BoundedText(what, given, min, max)
    ensures ParseRangeText(Render(e)) == Some(Bounded(what, given, min, max))
  {
    FromKind(Range(Negative(what, given, min, max)))
  }

  /** `Error::specific`: a leaf whose text reads back as the illegal value it reports. */
  function Specific(what: string, given: I128): (e: Error)
    ensures Chain(e) == [Range(RangeErrorKind.Specific(what, given))]
    ensures Render(e) == IllegalText(what, given)
    ensures ParseRangeText(Render(e)) == Some(Illegal(what, given))
  {
    FromKind(Range(RangeErrorKind.Specific(what, given)))
  }

  /** `Error::time_zone_lookup`: a leaf whose text reads back as the zone name. */
  function TimeZoneLookup(name: string): (e: Error)
    ensures Chain(e) == [ErrorKind.TimeZoneLookup(name)]
    ensures Render(e) == TimeZoneLookupText(name)
    ensures ParseTimeZoneLookupText(Render(e)) == Some(name)
  {
    FromKind(ErrorKind.TimeZoneLookup(name))
  }

  /** `Error::io`: a leaf rendering the operating system error's own text. */
  function Io(err: string): (e: Error)
    ensures Chain(e) == [IO(err)]
    ensures Render(e) == err
  {
    FromKind(IO(err))
  }

  /** The argument types that implement `IntoError`. */
  datatype Consequent =
    | ErrorValue(error: Error)
    | StaticStr(literal: string)
    | OwnedString(owned: string)

  /** `IntoError::into_error`: an error converts to itself, text to an ad hoc leaf. */
  function IntoError(c: Consequent): (e: Error)
    ensures c.ErrorValue? ==> e == c.error
    ensures c.StaticStr? ==> Chain(e) == [ErrorKind.Adhoc(c.literal)] && Render(e) == c.literal
    ensures c.OwnedString? ==> Chain(e) == [ErrorKind.Adhoc(c.owned)] && Render(e) == c.owned
  {
    match c
    case ErrorValue(err) => err
    case StaticStr(s) => Adhoc(s)
    case OwnedString(s) => Adhoc(s)
  }

  /** True when `context` accepts `c`: the converted consequent has no cause yet. */
  predicate Attachable(c: Consequent) {
    IsLeaf(IntoError(c))
  }

  /**
   `ErrorContext::context` on an error: the consequent, caused by `self`.
   The source asserts `Attachable(consequent)` and panics otherwise, since
   the consequent's own cause would be lost.
   */
  function Context(self: Error, consequent: Consequent): (e: Error)
    requires Attachable(consequent)
    ensures e.kind == IntoError(consequent).kind
    ensures e.cause == Some(self)
    ensures Chain(e) == [IntoError(consequent).kind] + Chain(self)
    ensures |Chain(e)| == |Chain(self)| + 1
    ensures Render(e) == KindText(IntoError(consequent).kind) + SEPARATOR + Render(self)
  {
    Error(IntoError(consequent).kind, Some(self))
  }

  /** What a call of `context` does at run time: it returns an error or panics. */
  datatype Outcome = Returned(error: Error) | Panicked(message: string)

  /** `context` including its assertion: panics exactly when the consequent already has a cause. */
  function ContextChecked(self: Error, consequent: Consequent): (o: Outcome)
    ensures o.Panicked? <==> !Attachable(consequent)
    ensures o.Panicked? ==> o.message == CAUSE_MUST_BE_NONE
    ensures o.Returned? ==> o.error.cause == Some(self) && Chain(o.error) == [IntoError(consequent).kind] + Chain(self)
  {
    if !Attachable(consequent) then Panicked(CAUSE_MUST_BE_NONE) else Returned(Context(self, consequent))
  }

  /** `ErrorContext::with_context` on an error: the producer is called once, then as `context`. */
  function WithContext(self: Error, produce: () -> Consequent): (e: Error)
    requires Attachable(produce())
    ensures e == Context(self, produce())
  {
    var err := IntoError(produce());
    Error(err.kind, Some(self))
  }

  /** `with_context` including its assertion: it panics exactly when the produced consequent already has a cause. */
  function WithContextChecked(self: Error, produce: () -> Consequent): (o: Outcome)
    ensures o.Panicked? <==> !Attachable(produce())
    ensures o == ContextChecked(self, produce())
    ensures o.Returned? ==> o.error == WithContext(self, produce)
  {
    var c := produce();
    if !Attachable(c) then Panicked(CAUSE_MUST_BE_NONE) else Returned(WithContext(self, produce))
  }

  /** `ErrorContext::context` on a result: only a failure gains the consequent. */
  function ResultContext<T>(r: Result<T, Error>, consequent: Consequent): (r': Result<T, Error>)
    requires r.Err? ==> Attachable(consequent)
    ensures r.Ok? ==> r' == r
    ensures r.Err? ==> r'.Err? && r'.error == Context(r.error, consequent)
    ensures r.Err? ==> Chain(r'.error) == [IntoError(consequent).kind] + Chain(r.error)
  {
    match r
    case Ok(v) => Ok(v)
    case Err(err) => Err(Context(err, consequent))
  }

  /** `ErrorContext::with_context` on a result: the producer is called only for a failure. */
  function ResultWithContext<T>(r: Result<T, Error>, produce: () -> Consequent): (r': Result<T, Error>)
    requires r.Err? ==> Attachable(produce())
    ensures r.Ok? ==> r' == r
    ensures r.Err? ==> r'.Err? && r'.error == Context(r.error, produce())
    ensures r.Err? ==> Chain(r'.error) == [IntoError(produce()).kind] + Chain(r.error)
  {
    match r
    case Ok(v) => Ok(v)
    case Err(err) => Err(WithContext(err, produce))
  }

  /** `Error::path`: this error as the cause of a bare file path. */
  function Path(self: Error, path: string): (e: Error)
    ensures e.kind == FilePath(path) && e.cause == Some(self)
    ensures Chain(e) == [FilePath(path)] + Chain(self)
    ensures Render(e) == path + SEPARATOR + Render(self)
  {
    Context(self, ErrorValue(FromKind(FilePath(path))))
  }

  /** `Error::fs`: an I/O error caused inside a path operation, a two-link chain. */
  function Fs(path: string, err: string): (e: Error)
    ensures Chain(e) == [FilePath(path), IO(err)]
    ensures Render(e) == path + SEPARATOR + err
  {
    Path(Io(err), path)
  }
}

module ErrorLaws {
  import opened Prelude
  import Kinds
  import opened Errors

  /** Attaching context twice nests outermost first: `C: B: A`. */
  lemma ContextTwice(a: Error, b: Consequent, c: Consequent)
    requires Attachable(b) && Attachable(c)
    ensures Chain(Context(Context(a, b), c)) == [IntoError(c).kind, IntoError(b).kind] + Chain(a)
    ensures Render(Context(Context(a, b), c))
            == Kinds.KindText(IntoError(c).kind) + SEPARATOR + Kinds.KindText(IntoError(b).kind) + SEPARATOR + Render(a)
  {
  }

  /** A text consequent, borrowed or owned, behaves exactly like the ad hoc error built from it. */
  lemma TextConsequentIsAdhoc(e: Error, text: string)
    ensures Attachable(StaticStr(text)) && Attachable(OwnedString(text))
    ensures Context(e, StaticStr(text)) == Context(e, ErrorValue(Adhoc(text)))
    ensures Context(e, OwnedString(text)) == Context(e, ErrorValue(Adhoc(text)))
    ensures Render(Context(e, StaticStr(text))) == text + SEPARATOR + Render(e)
  {
  }

  /** On a success the producer is never needed: even one whose error would make `with_context` panic is harmless. */
  lemma OkIgnoresProducer<T>(v: T, produce: () -> Consequent)
    requires !Attachable(produce())
    ensures ResultWithContext(Ok(v), produce) == Ok(v)
  {
  }

  /** `with_context` on a result agrees with `context` on the produced consequent. */
  lemma ResultWithContextIsContext<T>(r: Result<T, Error>, produce: () -> Consequent)
    requires r.Err? ==> Attachable(produce())
    ensures ResultWithContext(r, produce) == ResultContext(r, produce())
  {
  }

  /** The kinds a build can construct: the reduced build (no `std`) has no file path or I/O errors. */
  predicate InBuild(k: Kinds.ErrorKind, std: bool) {
    std || !(k.FilePath? || k.IO?)
  }

  predicate ChainInBuild(e: Error, std: bool) {
    forall i :: 0 <= i < |Chain(e)| ==> InBuild(Chain(e)[i], std)
  }

  /** The constructors available without `std` only build errors that build can hold. */
  lemma ReducedBuildLeaves(message: string, what: string, u: Kinds.U128, i: Kinds.I128, min: Kinds.I128, max: Kinds.I128, name: string)
    ensures ChainInBuild(Adhoc(message), false)
    ensures ChainInBuild(Unsigned(what, u, min, max), false)
    ensures ChainInBuild(Signed(what, i, min, max), false)
    ensures ChainInBuild(Specific(what, i), false)
    ensures ChainInBuild(TimeZoneLookup(name), false)
  {
  }

  /** Every error the `std`-only constructors build lies outside what the reduced build can hold. */
  lemma StdOnlyConstructors(self: Error, path: string, err: string)
    ensures !ChainInBuild(Io(err), false)
    ensures !ChainInBuild(Path(self, path), false)
    ensures !ChainInBuild(Fs(path, err), false)
  {
    assert Chain(Path(self, path))[0] == Kinds.FilePath(path);
    assert Chain(Fs(path, err))[1] == Kinds.IO(err);
  }

  /** Attaching context stays inside a build exactly when both the cause and the consequent do. */
  lemma ContextInBuild(self: Error, consequent: Consequent, std: bool)
    requires Attachable(consequent)
    ensures ChainInBuild(Context(self, consequent), std)
            <==> InBuild(IntoError(consequent).kind, std) && ChainInBuild(self, std)
  {
    var e := Context(self, consequent);
    assert Chain(e) == [IntoError(consequent).kind] + Chain(self);
    if ChainInBuild(e, std) {
      assert InBuild(Chain(e)[0], std);
      forall i | 0 <= i < |Chain(self)| ensures InBuild(Chain(self)[i], std) {
        assert Chain(self)[i] == Chain(e)[i + 1];
      }
    }
  }
}

=== FILE: error_kind.dfy ===
/**
 The closed union of error kinds behind jiff's single `Error` type, and the
 text each kind's `Display` implementation writes.

 Every template has an inverse parser as its partner, proved to recover the
 rendered fields: the rendered text is exactly the template with the fields
 spliced in, and nothing else.
 */
module Kinds {
  import opened Prelude
  import opened Decimal
  import opened Text

  /** 2^128: the values of a `u128` are 0 .. 2^128 - 1. */
  const U128_LIMIT: int := 0x1_0000_0000_0000_0000_0000_0000_0000_0000
  /** 2^127: the values of an `i128` are -2^127 .. 2^127 - 1. */
  const I128_LIMIT: int := 0x8000_0000_0000_0000_0000_0000_0000_0000

  type U128 = x: int | 0 <= x < U128_LIMIT
  type I128 = x: int | -I128_LIMIT <= x < I128_LIMIT

  /**
   A numeric-bound violation. `what` names the parameter; the caller has
   already found the value illegal, this type only carries and formats it.
   */
  datatype RangeErrorKind =
    | Positive(what: string, unsignedGiven: U128, min: I128, max: I128)
    | Negative(what: string, given: I128, min: I128, max: I128)
    | Specific(what: string, given: I128)

  /**
   The kind of an error. `Adhoc` carries its already formatted message;
   `FilePath` carries the displayed path and `IO` the displayed operating
   system error, both as supplied by the caller.
   */
  datatype ErrorKind =
    | Adhoc(message: string)
    | Range(range: RangeErrorKind)
    | TimeZoneLookup(name: string)
    | FilePath(path: string)
    | IO(io: string)

  const PARAMETER: string := "parameter '"
  const WITH_VALUE: string := "' with value "
  const NOT_IN_RANGE: string := " is not in the required range of "
  const RANGE_DOTS: string := "..="
  const ILLEGAL: string := " is illegal"
  const TZ_PREFIX: string := "failed to find timezone '"
  const TZ_SUFFIX: string := "' in time zone database"

  /** The part of every range error's text up to the given value. */
  function HeadText(what: string): string {
    PARAMETER + what + WITH_VALUE
  }

  /** The part of a bounded range error's text after the given value. */
  function BoundsText(min: int, max: int): string {
    NOT_IN_RANGE + IntToString(min) + RANGE_DOTS + IntToString(max)
  }

  /** The template shared by the `Positive` and `Negative` range errors. */
  function BoundedText(what: string, given: int, min: int, max: int): string {
    HeadText(what) + IntToString(given) + BoundsText(min, max)
  }

  /** The template of the `Specific` range error. */
  function IllegalText(what: string, given: int): string {
    HeadText(what) + IntToString(given) + ILLEGAL
  }

  /**
   `Display for RangeError`. The text determines the shape (bounded or
   illegal) and every field but the signedness of the given value: reading
   it back gives the view of `r`, whatever the parameter name holds.
   */
  function RangeText(r: RangeErrorKind): (t: string)
    ensures ParseRangeText(t) == Some(View(r))
  {
    ViewTextRoundTrip(View(r));
    match r
    case Positive(what, given, min, max) => BoundedText(what, given, min, max)
    case Negative(what, given, min, max) => BoundedText(what, given, min, max)
    case Specific(what, given) => IllegalText(what, given)
  }

  /** `Display for TimeZoneLookupError`: reading the text back gives any name, quotes included. */
  function TimeZoneLookupText(name: string): (t: string)
    ensures ParseTimeZoneLookupText(t) == Some(name)
  {
    var t := TZ_PREFIX + name + TZ_SUFFIX;
    PrefixOfConcat(TZ_PREFIX, name + TZ_SUFFIX);
    SuffixOfConcat(TZ_PREFIX + name, TZ_SUFFIX);
    assert t[|TZ_PREFIX|..|t| - |TZ_SUFFIX|] == name;
    t
  }

  /**
   `Display for ErrorKind`: each variant writes its own payload, the ad hoc,
   path and I/O texts verbatim and the structured kinds recoverably.
   */
  function KindText(k: ErrorKind): (t: string)
    ensures k.Adhoc? ==> t == k.message
    ensures k.FilePath? ==> t == k.path
    ensures k.IO? ==> t == k.io
    ensures k.Range? ==> ParseRangeText(t) == Some(View(k.range))
    ensures k.TimeZoneLookup? ==> ParseTimeZoneLookupText(t) == Some(k.name)
  {
    match k
    case Adhoc(message) => message
    case Range(r) => RangeText(r)
    case TimeZoneLookup(name) => TimeZoneLookupText(name)
    case FilePath(path) => path
    case IO(io) => io
  }

  /** The fields a range error's text shows; it does not show the given value's signedness. */
  datatype RangeView =
    | Bounded(what: string, given: int, min: int, max: int)
    | Illegal(what: string, given: int)

  function View(r: RangeErrorKind): RangeView {
    match r
    case Positive(what, given, min, max) => Bounded(what, given, min, max)
    case Negative(what, given, min, max) => Bounded(what, given, min, max)
    case Specific(what, given) => Illegal(what, given)
  }

  function ViewText(v: RangeView): string {
    match v
    case Bounded(what, given, min, max) => BoundedText(what, given, min, max)
    case Illegal(what, given) => IllegalText(what, given)
  }

  /*
   The parsers read from the right. A rendered integer holds only digits and
   '-', and every literal piece before one ends in ' ' or '=', so each number
   is the longest decimal suffix of what is left. The parameter name is then
   whatever remains between the two literal pieces around it, quotes and all.
   */

  /** Reads `parameter '<what>' with value <given>`, the whole of `s`. */
  function ParseHeadGiven(s: string): Option<(string, int)> {
    var (beforeGiven, digits) := SpanBack(s, IsDecimalChar);
    if !EndsWith(beforeGiven, WITH_VALUE) then None else
    var head := beforeGiven[..|beforeGiven| - |WITH_VALUE|];
    if !StartsWith(head, PARAMETER) then None else
    match ParseInt(digits)
    case None => None
    case Some(given) => Some((head[|PARAMETER|..], given))
  }

  /** Reads ` is not in the required range of <min>..=<max>` off the end of `s`, returning what precedes it. */
  function ParseBounds(s: string): Option<(string, int, int)> {
    var (beforeMax, maxDigits) := SpanBack(s, IsDecimalChar);
    if !EndsWith(beforeMax, RANGE_DOTS) then None else
    var (beforeMin, minDigits) := SpanBack(beforeMax[..|beforeMax| - |RANGE_DOTS|], IsDecimalChar);
    if !EndsWith(beforeMin, NOT_IN_RANGE) then None else
    match (ParseInt(minDigits), ParseInt(maxDigits))
    case (Some(min), Some(max)) => Some((beforeMin[..|beforeMin| - |NOT_IN_RANGE|], min, max))
    case _ => None
  }

  /** Recovers the fields from a range error's text, or `None` if it does not fit either template. */
  function ParseRangeText(s: string): Option<RangeView> {
    if EndsWith(s, ILLEGAL) then
      match ParseHeadGiven(s[..|s| - |ILLEGAL|])
      case None => None
      case Some((what, given)) => Some(Illegal(what, given))
    else
      match ParseBounds(s)
      case None => None
      case Some((before, min, max)) =>
        match ParseHeadGiven(before)
        case None => None
        case Some((what, given)) => Some(Bounded(what, given, min, max))
  }

  lemma HeadGivenRoundTrip(what: string, given: int)
    ensures ParseHeadGiven(HeadText(what) + IntToString(given)) == Some((what, given))
  {
    var h := HeadText(what);
    var g := IntToString(given);
    assert h[|h| - 1] == WITH_VALUE[|WITH_VALUE| - 1];
    assert AllKept(g, IsDecimalChar);
    SpanBackConcat(h, g, IsDecimalChar);
    SuffixOfConcat(PARAMETER + what, WITH_VALUE);
    PrefixOfConcat(PARAMETER, what);
    IntRoundTrip(given);
  }

  lemma HeadGivenParseRoundTrip(s: string)
    requires ParseHeadGiven(s).Some?
    ensures var (what, given) := ParseHeadGiven(s).value; HeadText(what) + IntToString(given) == s
  {
    var (beforeGiven, digits) := SpanBack(s, IsDecimalChar);
    var head := beforeGiven[..|beforeGiven| - |WITH_VALUE|];
    var what := head[|PARAMETER|..];
    assert head == PARAMETER + what;
    assert beforeGiven == head + WITH_VALUE;
    IntParseRoundTrip(digits);
  }

  lemma BoundsRoundTrip(before: string, min: int, max: int)
    ensures ParseBounds(before + BoundsText(min, max)) == Some((before, min, max))
  {
    var mn := IntToString(min);
    var mx := IntToString(max);
    var beforeMin := before + NOT_IN_RANGE;
    var beforeMax := beforeMin + mn + RANGE_DOTS;
    ConcatAssoc(before, NOT_IN_RANGE + mn + RANGE_DOTS, mx);
    ConcatAssoc(before, NOT_IN_RANGE + mn, RANGE_DOTS);
    ConcatAssoc(before, NOT_IN_RANGE, mn);
    assert before + BoundsText(min, max) == beforeMax + mx;
    assert beforeMax[|beforeMax| - 1] == '=';
    assert AllKept(mx, IsDecimalChar);
    SpanBackConcat(beforeMax, mx, IsDecimalChar);
    SuffixOfConcat(beforeMin + mn, RANGE_DOTS);
    assert beforeMin[|beforeMin| - 1] == ' ';
    assert AllKept(mn, IsDecimalChar);
    SpanBackConcat(beforeMin, mn, IsDecimalChar);
    SuffixOfConcat(before, NOT_IN_RANGE);
    IntRoundTrip(min);
    IntRoundTrip(max);
  }

  lemma BoundsParseRoundTrip(s: string)
    requires ParseBounds(s).Some?
    ensures var (before, min, max) := ParseBounds(s).value; before + BoundsText(min, max) == s
  {
    var (beforeMax, mx) := SpanBack(s, IsDecimalChar);
    var t := beforeMax[..|beforeMax| - |RANGE_DOTS|];
    assert beforeMax == t + RANGE_DOTS;
    var (beforeMin, mn) := SpanBack(t, IsDecimalChar);
    var before := beforeMin[..|beforeMin| - |NOT_IN_RANGE|];
    assert beforeMin == before + NOT_IN_RANGE;
    IntParseRoundTrip(mn);
    IntParseRoundTrip(mx);
    assert s == before + NOT_IN_RANGE + mn + RANGE_DOTS + mx;
    ConcatAssoc(before, NOT_IN_RANGE + mn + RANGE_DOTS, mx);
    ConcatAssoc(before, NOT_IN_RANGE + mn, RANGE_DOTS);
    ConcatAssoc(before, NOT_IN_RANGE, mn);
  }

  lemma BoundedTextRoundTrip(what: string, given: int, min: int, max: int)
    ensures ParseRangeText(BoundedText(what, given, min, max)) == Some(Bounded(what, given, min, max))
  {
    var s := BoundedText(what, given, min, max);
    var front := HeadText(what) + IntToString(given);
    var mx := IntToString(max);
    assert s[|s| - 1] == mx[|mx| - 1];
    assert IsDecimalChar(s[|s| - 1]) && !IsDecimalChar(ILLEGAL[|ILLEGAL| - 1]);
    BoundsRoundTrip(front, min, max);
    HeadGivenRoundTrip(what, given);
  }

  lemma IllegalTextRoundTrip(what: string, given: int)
    ensures ParseRangeText(IllegalText(what, given)) == Some(Illegal(what, given))
  {
    var front := HeadText(what) + IntToString(given);
    SuffixOfConcat(front, ILLEGAL);
    HeadGivenRoundTrip(what, given);
  }

  lemma ViewTextRoundTrip(v: RangeView)
    ensures ParseRangeText(ViewText(v)) == Some(v)
  {
    match v
    case Bounded(what, given, min, max) => BoundedTextRoundTrip(what, given, min, max);
    case Illegal(what, given) => IllegalTextRoundTrip(what, given);
  }

  /** Every string the parser accepts is exactly the rendering of what it returns. */
  lemma RangeTextParseRoundTrip(s: string)
    requires ParseRangeText(s).Some?
    ensures ViewText(ParseRangeText(s).value) == s
  {
    if EndsWith(s, ILLEGAL) {
      var front := s[..|s| - |ILLEGAL|];
      assert s == front + ILLEGAL;
      HeadGivenParseRoundTrip(front);
    } else {
      BoundsParseRoundTrip(s);
      var (before, min, max) := ParseBounds(s).value;
      HeadGivenParseRoundTrip(before);
    }
  }

  /** The unsigned and the signed bounded shapes write the same text for the same numbers. */
  lemma PositiveNegativeSameText(what: string, given: nat, min: I128, max: I128)
    requires given < I128_LIMIT
    ensures RangeText(Positive(what, given, min, max)) == RangeText(Negative(what, given, min, max))
    ensures View(Positive(what, given, min, max)) == View(Negative(what, given, min, max))
  {
  }

  /** Recovers the zone name from a time zone lookup error's text. */
  function ParseTimeZoneLookupText(s: string): Option<string> {
    if |TZ_PREFIX| + |TZ_SUFFIX| <= |s| && StartsWith(s, TZ_PREFIX) && EndsWith(s, TZ_SUFFIX)
    then Some(s[|TZ_PREFIX|..|s| - |TZ_SUFFIX|])
    else None
  }

  /** Every string the parser accepts is exactly the lookup error's text for the name it returns. */
  lemma TimeZoneLookupParseRoundTrip(s: string)
    requires ParseTimeZoneLookupText(s).Some?
    ensures TimeZoneLookupText(ParseTimeZoneLookupText(s).value) == s
  {
    var name := ParseTimeZoneLookupText(s).value;
    assert s == s[..|TZ_PREFIX|] + name + s[|s| - |TZ_SUFFIX|..];
  }
}

=== FILE: prelude.dfy ===
/** The two sum types the Rust source takes from its standard library. */
module Prelude {

  /** `Option<T>`: an absent or present value. */
  datatype Option<+T> = None | Some(value: T)

  /** `Result<T, E>`: a success value or a failure value. */
  datatype Result<+T, +E> = Ok(value: T) | Err(error: E)
}

=== FILE: scenarios.dfy ===
/**
 Concrete renderings of the `Display` templates (src/error.rs:304-347) and of
 the chain loop (src/error.rs:199-212). The expected texts are written as
 their literal pieces, in order.
 */
module Scenarios {
  import opened Text
  import opened Decimal
  import Kinds
  import opened Errors

  /** The bounded template with its fields spliced in, as a flat concatenation. */
  lemma BoundedPieces(what: string, given: int, min: int, max: int)
    ensures Kinds.BoundedText(what, given, min, max)
            == "parameter '" + what + "' with value " + IntToString(given) + " is not in the required range of "
               + IntToString(min) + "..=" + IntToString(max)
  {
    var head := Kinds.HeadText(what) + IntToString(given);
    ConcatAssoc(head + Kinds.NOT_IN_RANGE + IntToString(min), Kinds.RANGE_DOTS, IntToString(max));
    ConcatAssoc(head + Kinds.NOT_IN_RANGE, IntToString(min), Kinds.RANGE_DOTS + IntToString(max));
    ConcatAssoc(head, Kinds.NOT_IN_RANGE, IntToString(min) + (Kinds.RANGE_DOTS + IntToString(max)));
    ConcatAssoc(Kinds.NOT_IN_RANGE, IntToString(min), Kinds.RANGE_DOTS + IntToString(max));
    ConcatAssoc(Kinds.NOT_IN_RANGE + IntToString(min), Kinds.RANGE_DOTS, IntToString(max));
  }

  lemma DayOutOfRange()
    ensures Render(Unsigned("day", 40, 1, 31))
            == "parameter '" + "day" + "' with value " + "40" + " is not in the required range of " + "1" + "..=" + "31"
  {
    assert IntToString(40) == "40" by {
      assert NatToString(40) == NatToString(4) + [DigitChar(0)];
    }
    assert IntToString(31) == "31" by {
      assert NatToString(31) == NatToString(3) + [DigitChar(1)];
    }
    assert IntToString(1) == "1";
    BoundedPieces("day", 40, 1, 31);
  }

  lemma DayZeroIsIllegal()
    ensures Render(Specific("day", 0)) == "parameter '" + "day" + "' with value " + "0" + " is illegal"
  {
    assert IntToString(0) == "0";
  }

  lemma NegativeBound()
    ensures Render(Signed("offset", -5, -3, 3))
            == "parameter '" + "offset" + "' with value " + "-5" + " is not in the required range of " + "-3" + "..=" + "3"
  {
    assert IntToString(-5) == "-5";
    assert IntToString(-3) == "-3";
    assert IntToString(3) == "3";
    BoundedPieces("offset", -5, -3, 3);
  }

  lemma UnknownZone()
    ensures Render(TimeZoneLookup("Fake/Zone")) == "failed to find timezone '" + "Fake/Zone" + "' in time zone database"
  {
  }

  lemma AdhocWithContext()
    ensures Render(Context(Adhoc("bad input"), StaticStr("parsing duration"))) == "parsing duration" + ": " + "bad input"
  {
  }

  lemma TwoContexts()
    ensures Render(Context(Context(Adhoc("A"), StaticStr("B")), StaticStr("C"))) == "C" + ": " + "B" + ": " + "A"
  {
  }

  lemma FsChain()
    ensures Render(Fs("/usr/share/zoneinfo", "permission denied")) == "/usr/share/zoneinfo" + ": " + "permission denied"
  {
  }

  /** A consequent that already has a cause makes `context` panic instead of dropping that cause. */
  lemma CausedConsequentPanics()
    ensures ContextChecked(Adhoc("A"), ErrorValue(Context(Adhoc("B"), StaticStr("C")))) == Panicked(CAUSE_MUST_BE_NONE)
  {
  }
}

=== FILE: text.dfy ===
/** String helpers shared by the renderers and their parsers. */
module Text {

  predicate StartsWith(s: string, prefix: string) {
    |prefix| <= |s| && s[..|prefix|] == prefix
  }

  predicate EndsWith(s: string, suffix: string) {
    |suffix| <= |s| && s[|s| - |suffix|..] == suffix
  }

  predicate AllKept(s: string, keep: char -> bool) {
    forall i :: 0 <= i < |s| ==> keep(s[i])
  }

  /**
   Splits `s` into the remainder and its longest suffix whose characters all
   satisfy `keep`.
   */
  function SpanBack(s: string, keep: char -> bool): (r: (string, string))
    ensures r.0 + r.1 == s
    ensures AllKept(r.1, keep)
    ensures |r.0| == 0 || !keep(r.0[|r.0| - 1])
    decreases |s|
  {
    if |s| == 0 || !keep(s[|s| - 1]) then (s, [])
    else
      var (a, b) := SpanBack(s[..|s| - 1], keep);
      (a, b + [s[|s| - 1]])
  }

  /** A stop character (or nothing) followed by kept characters is exactly where `SpanBack` cuts. */
  lemma {:induction false} SpanBackConcat(a: string, b: string, keep: char -> bool)
    requires |a| == 0 || !keep(a[|a| - 1])
    requires AllKept(b, keep)
    ensures SpanBack(a + b, keep) == (a, b)
    decreases |b|
  {
    if |b| > 0 {
      var s := a + b;
      assert s[|s| - 1] == b[|b| - 1];
      assert s[..|s| - 1] == a + b[..|b| - 1];
      SpanBackConcat(a, b[..|b| - 1], keep);
      assert b[..|b| - 1] + [b[|b| - 1]] == b;
    } else {
      assert a + b == a;
    }
  }

  lemma ConcatAssoc(a: string, b: string, c: string)
    ensures a + b + c == a + (b + c)
  {
  }

  lemma PrefixOfConcat(p: string, t: string)
    ensures StartsWith(p + t, p)
    ensures (p + t)[|p|..] == t
  {
    assert (p + t)[..|p|] == p;
  }

  lemma SuffixOfConcat(t: string, q: string)
    ensures EndsWith(t + q, q)
    ensures (t + q)[..|t|] == t
  {
    assert (t + q)[|t|..] == q;
  }

  /** `parts[0] + sep + parts[1] + sep + ... + parts[n-1]`. */
  function Join(parts: seq<string>, sep: string): string
  {
    if |parts| == 0 then ""
    else if |parts| == 1 then parts[0]
    else parts[0] + sep + Join(parts[1..], sep)
  }

  /** Joining one more part in front adds exactly one separator. */
  lemma JoinCons(head: string, tail: seq<string>, sep: string)
    requires |tail| > 0
    ensures Join([head] + tail, sep) == head + sep + Join(tail, sep)
  {
    assert ([head] + tail)[1..] == tail;
  }
}
